=== FILE: README.md ===
# Stock ledger of the mini inventory backend, in Dafny

This project models the one piece of domain logic in the inventory
management backend: the coupling between transaction records and the
per-product stock counters, together with the product and inventory rules
that make that coupling hold, and the pagination arithmetic the services
share.

The whole relational store is one immutable value `Entities.State`:

- products keyed by id;
- one inventory row per product, keyed by that product;
- transactions keyed by id.

Every service call is a pure function from a store to a `Step`. A `Step`
holds the store afterwards and either the call's value or one of the error
kinds `NotFound`, `Conflict`, `InsufficientStock` or `BadRequest`. The store
is returned on failure too, so "a failed call changes nothing" is proved,
not built in.

Modules follow the source files:

- `Repository` (`repository.dfy`): `delete`'s boolean and `paginate`.
- `InventoryService` (`inventory.dfy`): `updateStock`, the manual row edit,
  the low-stock query and the `findAll` filters.
- `ProductsService` (`products.dfy`): SKU checks, seeding of the inventory
  row, and the delete guard.
- `TransactionDto` (`transaction_dto.dfy`): the validity of a
  create-transaction body.
- `TransactionsService` (`transactions.dfy`): create with compensation,
  update, and remove with reversal.
- `Ledger` (`ledger.dfy`): the global invariant "stock = sum of signed
  quantities of live transactions" and the request state machine.
- `Scenarios` (`scenarios.dfy`): a concrete purchase/sale/void history.

Money is integer cents, so `unitPrice * quantity` is exact. Timestamps are
an abstract clock value `now` passed to each call. Generated uuids are
passed in as parameters that must be unused.

Details of the code the model keeps:

- An attempt to change a transaction's quantity or type is answered with
  `BadRequest`, as `transactions.service.ts` does at lines 148-149.
- A supplied `totalAmount` of 0 counts as absent. A `unitPrice` of 0 counts
  as absent too, which gives the same result.
- Removing a sale moves stock up through `updateStock(..., 'add')`, so it
  stamps `lastRestockedAt`.
- Any failure of the reversal on remove becomes `BadRequest`.

## Model

| member | source | states |
|---|---|---|
| Entities.ParseTransactionType | backend/src/modules/transactions/entities/transaction.entity.ts:12-17 | a string is accepted as a transaction type only if it is that type's stored name |
| Entities.ParseTypeNameRoundTrip | backend/src/modules/transactions/entities/transaction.entity.ts:12-17 | every type's stored name parses back to that type |
| Repository.Delete | backend/src/common/repositories/base.repository.ts:39-42 | delete returns true iff a row with the key existed; afterwards exactly that key is gone and all other rows are untouched |
| Repository.CeilDiv | backend/src/common/repositories/base.repository.ts:67 | totalPages is the least page count whose pages hold all rows: totalPages * limit >= total and (totalPages - 1) * limit < total |
| Repository.PageQuery | backend/src/common/repositories/base.repository.ts:52-59 | skip = (page - 1) * limit and take = limit; an order is requested iff a non-empty sortBy is given (an empty string is falsy), in the requested direction or DESC by default |
| Repository.Window | backend/src/common/repositories/base.repository.ts:57-58 | the store returns the rows starting at `skip`, in order: exactly `take` of them when that many remain, all remaining ones otherwise, none when `skip` is past the end |
| Repository.Paginate | backend/src/common/repositories/base.repository.ts:48-69 | the result echoes page and limit, reports the full total, and its data is the run of rows after the skipped pages: `limit` of them when that many remain, otherwise all the rest |
| Repository.PageCount | backend/src/common/repositories/base.repository.ts:67 | pages up to totalPages are non-empty, pages before the last are full, pages past it are empty, and totalPages is 0 iff there are no rows |
| Repository.PagesUpToPrefix | backend/src/common/repositories/base.repository.ts:53-58 | the first n pages hold exactly the first n * limit rows |
| Repository.PagesCoverRows | backend/src/common/repositories/base.repository.ts:53-67 | reading pages 1 to totalPages returns every row exactly once, in order |
| InventoryService.FindByProductId | backend/src/modules/inventory/inventory.service.ts:85-96 | the product's row is returned if it has one, else NotFound |
| InventoryService.UpdateStock | backend/src/modules/inventory/inventory.service.ts:115-132 | NotFound without a row; InsufficientStock and no change when the moved counter would be negative; with a row and a non-negative moved counter the call succeeds, the counter moves by +q or -q, add stamps `now`, subtract keeps the stamp, and nothing else changes |
| InventoryService.UpdateStockReversible | backend/src/modules/inventory/inventory.service.ts:118-127 | on a non-negative counter, a successful move is always undone by the opposite move, which restores the counter |
| InventoryService.UpdateInventory | backend/src/modules/inventory/inventory.service.ts:98-113 | NotFound without a row; supplied fields overwrite; the restock stamp becomes `now` exactly when the counter rose, and is kept otherwise |
| InventoryService.GetLowStockItems | backend/src/modules/inventory/inventory.service.ts:134-142 | returns exactly the products whose row has currentStock <= minimumStock and minimumStock > 0 |
| InventoryService.FilterInventory | backend/src/modules/inventory/inventory.service.ts:42-52 | returns exactly the rows passing every supplied filter: lowStock, minStock and maxStock |
| InventoryService.LowStockFilterExtra | backend/src/modules/inventory/inventory.service.ts:42-44 | the lowStock filter returns every low-stock item; on non-negative rows, the only extra rows are those at 0 with minimum 0 |
| InventoryService.StockRangeInclusive | backend/src/modules/inventory/inventory.service.ts:46-52 | minStock and maxStock are inclusive bounds: with both equal to n, exactly the rows holding n remain |
| Entities.ValidatorLength | backend/src/modules/transactions/dto/create-transaction.dto.ts:31-39 | the length MaxLength measures never exceeds the number of characters, and equals it for a string without variation selectors |
| TransactionDto.ValidationBoundaries | backend/src/modules/transactions/dto/create-transaction.dto.ts:13-43 | the decorator bounds are inclusive: quantity 1, notes of 500 and reference of 100 characters pass; quantity 0, notes of 501, reference of 101, an unknown type or a non-uuid product id fail; a trailing variation selector is not counted, so 500 characters plus U+FE0F still pass |
| TransactionsService.CreateDirection | backend/src/modules/transactions/transactions.service.ts:37-47 | recording moves stock down iff the type is sale; purchase, adjustment and return move it up |
| TransactionsService.ReverseDirection | backend/src/modules/transactions/transactions.service.ts:163-174 | deleting a sale adds its units back; deleting a purchase, adjustment or return takes them away |
| TransactionsService.ReverseIsOpposite | backend/src/modules/transactions/transactions.service.ts:163-174 | deletion moves stock opposite to recording, for every type |
| TransactionsService.TotalAmount | backend/src/modules/transactions/transactions.service.ts:25 | a supplied non-zero total is kept; otherwise the total is unitPrice * quantity, with a missing price counting as 0 |
| TransactionsService.TotalAmountNonNegative | backend/src/modules/transactions/transactions.service.ts:25 | a valid body never produces a negative total |
| TransactionsService.NewTransaction | backend/src/modules/transactions/transactions.service.ts:22-31 | the saved row carries the body's product, quantity (>= 1), parsed type, unit price, notes and reference, the derived total, and the body's date or `now`; it inherits the body's bounds: non-negative price and total, notes of at most 500 and reference of at most 100 characters as the validator counts them |
| TransactionsService.FindOne | backend/src/modules/transactions/transactions.service.ts:126-137 | the transaction is returned if it exists, else NotFound |
| TransactionsService.Create | backend/src/modules/transactions/transactions.service.ts:21-58 | fails iff the product has no row (NotFound) or the signed move would go negative (InsufficientStock); the compensated failure leaves the store unchanged; success stores the row and moves only that product's counter by the signed quantity, stamping on every type but sale |
| TransactionsService.UpdateAsWritten | backend/src/modules/transactions/transactions.service.ts:139-154 | the edit as written: NotFound for an unknown id; BadRequest iff a supplied quantity or type differs; otherwise every supplied field, the product included, is written over the row and inventory is untouched |
| TransactionsService.Update | backend/src/modules/transactions/transactions.service.ts:139-154 | the corrected edit: NotFound for an unknown id; BadRequest iff a supplied quantity, type or product differs from the stored one; otherwise it succeeds, keeps product, type and quantity, overwrites the supplied fields, and leaves inventory untouched |
| TransactionsService.Remove | backend/src/modules/transactions/transactions.service.ts:156-180 | NotFound for an unknown id; fails with BadRequest, changing nothing, iff the reversal would fail; success deletes the row and moves the counter back by the signed quantity |
| TransactionsService.CreateRemoveRoundTrip | backend/src/modules/transactions/transactions.service.ts:160-179 | a recorded transaction can always be deleted again, and deleting it restores the store except for the row's restock stamp |
| TransactionsService.CreateMovesStockStrictly | backend/src/modules/transactions/transactions.service.ts:37-47 | with quantity >= 1, a recorded sale strictly lowers stock and any other type strictly raises it |
| ProductsService.Create | backend/src/modules/products/products.service.ts:19-39 | Conflict with no change iff some product has the SKU; otherwise the stored product carries every field of the body, isActive defaulting to true, and is added with a row at 0/0/0 with no stamp, transactions untouched |
| ProductsService.FindOne | backend/src/modules/products/products.service.ts:100-111 | the product is returned if it exists, else NotFound |
| ProductsService.Update | backend/src/modules/products/products.service.ts:113-129 | NotFound for an unknown id; Conflict iff a non-empty SKU different from the current one is supplied and another product holds it; resupplying the own SKU never conflicts; no other failure than NotFound and Conflict is possible |
| ProductsService.Remove | backend/src/modules/products/products.service.ts:131-146 | the corrected delete: NotFound for an unknown id; Conflict with no change iff the product has a transaction; otherwise it succeeds and deletes the product together with its inventory row, transactions untouched |
| ProductsService.JoinedProductCount | backend/src/modules/products/products.service.ts:135-139 | the guard's count is at least 1 for every existing product |
| ProductsService.RemoveAsWritten | backend/src/modules/products/products.service.ts:131-146 | the delete as written: NotFound for an unknown id, and a failure changes nothing |
| ProductsService.RemoveAsWrittenAlwaysConflicts | backend/src/modules/products/products.service.ts:134-143 | as written, every existing product is refused with Conflict |
| ProductsService.RemoveGuardCounterexample | backend/src/modules/products/products.service.ts:134-143 | a product without transactions: the guard as written refuses it, the corrected guard deletes it |
| Ledger.NetStockInsert | backend/src/modules/transactions/transactions.service.ts:33-47 | adding a transaction row adds exactly its signed quantity to its product's ledger sum |
| Ledger.NetStockDelete | backend/src/modules/transactions/transactions.service.ts:163-179 | deleting a transaction row removes exactly its signed quantity from its product's ledger sum |
| Ledger.Execute | backend/src/modules/transactions/transactions.service.ts:51-55 | every request answered with an error leaves the whole store unchanged; a product body, transaction body, product patch or inventory patch failing validation is answered with BadRequest before any service runs |
| Ledger.NetStockReplace | backend/src/modules/transactions/transactions.service.ts:152 | rewriting a transaction row trades its old signed quantity for the new one in the ledger sum |
| Ledger.UpdateAsWrittenBreaksLedger | backend/src/modules/transactions/transactions.service.ts:142-152 | from any store satisfying the ledger invariant, the edit as written that moves a transaction to another existing product succeeds and breaks the invariant |
| Ledger.ExecutePreservesWellFormed | backend/src/modules/products/products.service.ts:21-36 | every request keeps counters and thresholds non-negative, every product with its row, SKUs unique, and every transaction's quantity at least 1 |
| Ledger.ExecutePreservesLedger | backend/src/modules/transactions/transactions.service.ts:21-180 | every request except a manual inventory edit keeps each counter equal to its product's ledger sum |
| Ledger.RunPreservesWellFormed | backend/src/modules/products/products.service.ts:19-146 | any history of requests keeps the store well formed |
| Ledger.RunPreservesLedger | backend/src/modules/transactions/transactions.service.ts:21-180 | any history without manual edits keeps every counter equal to its product's ledger sum |
| Ledger.FromEmptyStore | backend/src/modules/products/products.service.ts:32-36 | from the empty store, a history without manual edits gives counters equal to non-negative ledger sums |
| Ledger.ManualEditBreaksLedger | backend/src/modules/inventory/inventory.service.ts:98-113 | a manual stock edit can make a counter differ from its ledger sum |
| Scenarios.CreateWidget | backend/src/modules/products/products.service.ts:29-36 | creating a product in the empty store stores it with a row at stock 0 |
| Scenarios.RecordPurchase | backend/src/modules/transactions/transactions.service.ts:21-58 | from stock 0, a purchase of 20 at unit price 2 is stored with total 40, raises stock to 20 and stamps the row |
| Scenarios.RecordSale | backend/src/modules/transactions/transactions.service.ts:42-43 | a sale of 5 then lowers stock to 15 and keeps the stamp |
| Scenarios.RefuseOversell | backend/src/modules/transactions/transactions.service.ts:51-55 | a sale of 100 against stock 15 is refused with InsufficientStock and leaves the store unchanged |
| Scenarios.VoidSale | backend/src/modules/transactions/transactions.service.ts:156-180 | voiding the sale removes its row and restores stock 20 |
| Scenarios.EditAfterPurchase | backend/src/modules/transactions/transactions.service.ts:139-154 | changing a quantity or the product is refused; resupplying the quantity with new notes is accepted and leaves stock alone |

## Findings

| source | as written | input that shows it | evidently intended | confidence | as-written member | corrected member |
|---|---|---|---|---|---|---|
| backend/src/modules/products/products.service.ts:135-143 | the guard counts products left-joined to their transactions, filtered to the id. The left join keeps the product row, so the count is at least 1 for every existing product | a product with no transactions (`RemoveGuardCounterexample`): delete answers Conflict | refuse only a product with at least one transaction, as the comment and the error message say | high, not executed | ProductsService.RemoveAsWritten | ProductsService.Remove |
| backend/src/modules/transactions/transactions.service.ts:142-152 | the edit guard compares only quantity and type, then writes the whole body, so a supplied `productId` moves the transaction to another product without moving any stock | an edit of any existing transaction that supplies another product's id (`UpdateAsWrittenBreaksLedger`): both counters keep their values and no longer match their transactions | an edit may not change what a transaction does to stock, as the comment and the message say; a different product is refused like a different quantity | medium, not executed | TransactionsService.UpdateAsWritten | TransactionsService.Update |

The request state machine `Ledger.Execute` uses the corrected
`ProductsService.Remove` and `TransactionsService.Update`. The corrected
delete removes the inventory row with the product. The row's foreign key to
the product has no delete rule, so the database would refuse to delete the
product while the row exists.

The second finding depends on the transaction edit body accepting
`productId`. The backend `update-transaction.dto.ts` is not part of this
model. The frontend declares `UpdateTransactionDto` as a partial of the
create body (`frontend/src/types/index.ts:100`). The edit form sends every
field, the product included (`frontend/src/components/TransactionForm.tsx:34`,
`frontend/src/pages/Transactions.tsx:78`).

## Left out

- The frontend, the controllers, the Nest modules, `main.ts` and the
  database configuration. These are UI, routing and wiring.
- `categories.service.ts`. Its `create` and `update` call themselves and
  would not terminate. The rest has the same shape as products.
- Search with ILIKE, ordering by an arbitrary `sortBy` column, and the
  `getTransactionSummary` aggregation. These are database semantics.
  `Repository.Paginate` takes the matching rows in the store's order as
  input. Of the `findAll` filters, only the inventory ones are stated.
- Concurrency. `updateStock` reads and then writes, so it can race; every
  call is modelled as one atomic step.
- Real timestamps. `now` is an abstract clock value, and `lastRestockedAt`
  and `transactionDate` hold such values.
- Decimal money and fractional quantities. `IsNumber` admits fractions,
  but quantities are integers here and money is unbounded integer cents.
  The `decimal(10,2)` columns hold at most 99999999.99, and a larger total
  fails in the database.
- `averageCost`, `createdAt`, `updatedAt` and the relations each query
  loads. No rule of the services depends on them.
- Inventory rows are keyed by product. In the source, `PATCH /inventory/:id`
  and `findOne` address a row by its own uuid. Every product gets exactly
  one row, so this model names the row by its product.
- Foreign-key and unique constraints of the database. A transaction for an
  unknown product is modelled through the `NotFound` from `updateStock`
  and the compensation. The corrected product delete removes the
  product's inventory row itself, which is what the foreign key demands.
- `update-transaction.dto.ts` and `update-product.dto.ts` are not part of
  this model. The transaction patch carries every field of the create body,
  the product id included, without the create body's validation. The
  product patch holds every supplied field to the rule
  `create-product.dto.ts` puts on that field.
- The varchar columns count every character. A reference, product name,
  SKU or unit at its bound plus a variation selector passes validation but
  fails in the database; the model accepts it.
- The uuid generator. Fresh ids are parameters with an "unused"
  precondition. In `Ledger.Execute`, a request carrying a used id is no
  request at all.
- `create-transaction.dto.ts` uses `IsNotEmpty` without importing it. The
  model reads the field as a required uuid.
- Repository.Paginate: requires only page >= 1 and limit >= 1, which is
  weaker than the query DTOs' 1 <= limit <= 100.
  Ordering the rows is left to the store.
- Repository.PagesCoverRows: assumes every page query sees the rows in one
  fixed order. Without a non-empty `sortBy` no ORDER BY is issued, and the
  database then promises no stable order from one query to the next.
- InventoryService.UpdateStock: the counter is an unbounded integer. The
  `int` column holds at most 2147483647, and a move past it fails in the
  database; here it succeeds.
- TransactionsService.Create: its "fails iff" ignores the same `int` bound
  on the counter and on the quantity. A purchase that pushes the counter
  past 2147483647 fails in the database but succeeds here.
- ProductsService.Update: the contract names the SKU, name and price
  fields. The other supplied fields are overwritten the same way.
- Ledger.RunPreservesLedger: states the invariant only for histories
  without manual inventory edits. Such an edit sets the counter directly,
  and `Ledger.ManualEditBreaksLedger` shows that it can break the invariant.
  It is proved for the corrected transaction edit. The edit as written can
  break it (`Ledger.UpdateAsWrittenBreaksLedger`).

=== FILE: entities.dfy ===
/** The persisted records of the backend and the whole store as one value. */
module Entities {
  import opened Results

  /** Primary keys are generated uuids, kept here as strings. */
  type ProductId = string
  type TransactionId = string

  /** An abstract clock reading, standing in for a timestamp. */
  type Time = nat

  /** Money in integer cents, so that unitPrice * quantity is exact. */
  type Cents = int

  predicate IsHexDigit(c: char) {
    '0' <= c <= '9' || 'a' <= c <= 'f' || 'A' <= c <= 'F'
  }

  /** The variation selectors U+FE0E and U+FE0F. */
  predicate IsVariationSelector(c: char) {
    c == '\U{FE0E}' || c == '\U{FE0F}'
  }

  /** The length the MaxLength validator measures: one per code point, except
      that variation selectors are not counted. */
  function ValidatorLength(s: string): (n: nat)
    ensures n <= |s|
    ensures (forall i :: 0 <= i < |s| ==> !IsVariationSelector(s[i])) ==> n == |s|
    decreases |s|
  {
    if s == [] then 0
    else ValidatorLength(s[..|s| - 1]) + (if IsVariationSelector(s[|s| - 1]) then 0 else 1)
  }

  /** The 8-4-4-4-12 hexadecimal shape of a uuid. */
  predicate IsUuid(s: string) {
    |s| == 36 &&
    forall i :: 0 <= i < 36 ==>
      if i == 8 || i == 13 || i == 18 || i == 23 then s[i] == '-' else IsHexDigit(s[i])
  }

  datatype TransactionType = Purchase | Sale | Adjustment | Return

  /** The string value of each enum member, as stored and as sent by clients. */
  function TypeName(k: TransactionType): string {
    match k
    case Purchase => "purchase"
    case Sale => "sale"
    case Adjustment => "adjustment"
    case Return => "return"
  }

  /** Membership in the TransactionType enum, as the IsEnum validator checks it. */
  function ParseTransactionType(s: string): (r: Option<TransactionType>)
    ensures r.Some? ==> TypeName(r.value) == s
  {
    if s == "purchase" then Some(Purchase)
    else if s == "sale" then Some(Sale)
    else if s == "adjustment" then Some(Adjustment)
    else if s == "return" then Some(Return)
    else None
  }

  /** Every enum member is recognised by its own name, and no other string
      names it: together with ParseTransactionType's contract, parsing and
      naming are inverse bijections between the four strings and the enum. */
  lemma ParseTypeNameRoundTrip(k: TransactionType)
    ensures ParseTransactionType(TypeName(k)) == Some(k)
  {
  }

  datatype Product = Product(
    name: string,
    sku: string,
    description: Option<string>,
    price: Cents,
    cost: Option<Cents>,
    unit: Option<string>,
    isActive: bool,
    categoryId: string)

  /** An inventory row; averageCost is never maintained by the services and is omitted. */
  datatype Inventory = Inventory(
    currentStock: int,
    minimumStock: int,
    maximumStock: int,
    lastRestockedAt: Option<Time>)

  datatype Transaction = Transaction(
    productId: ProductId,
    kind: TransactionType,
    quantity: int,
    unitPrice: Option<Cents>,
    totalAmount: Cents,
    notes: Option<string>,
    reference: Option<string>,
    transactionDate: Time)

  /** The relational store: products, the inventory row of each product
      (keyed by the product it belongs to), and transactions. */
  datatype State = State(
    products: map<ProductId, Product>,
    inventory: map<ProductId, Inventory>,
    transactions: map<TransactionId, Transaction>)

  const EmptyState := State(map[], map[], map[])

  /** The result of one service call: the store afterwards and the call's
      answer. The store is returned on failure as well, so that
      "a failed call changes nothing" is something to prove. */
  datatype Step<+V> = Step(next: State, out: Result<V>)
}

=== FILE: inventory.dfy ===
/** The inventory service: the stock counter of each product, the manual
    edit of a row, and the low-stock queries. */
module InventoryService {
  import opened Results
  import opened Entities

  /** The direction updateStock is asked to move the counter in. */
  datatype Direction = Add | Subtract

  function Opposite(d: Direction): Direction {
    match d
    case Add => Subtract
    case Subtract => Add
  }

  /** The inventory row of a product, or NotFound when it has none. */
  function FindByProductId(s: State, productId: ProductId): (r: Result<Inventory>)
    ensures r.Ok? <==> productId in s.inventory
    ensures r.Ok? ==> r.value == s.inventory[productId]
    ensures r.Err? ==> r.error == NotFound
  {
    if productId in s.inventory then Ok(s.inventory[productId]) else Err(NotFound)
  }

  /** The counter after moving `stock` by `quantity` in direction `d`. */
  function Moved(stock: int, quantity: int, d: Direction): int {
    match d
    case Add => stock + quantity
    case Subtract => stock - quantity
  }

  /** Moves the product's stock by `quantity`; refuses a negative result.
      Adding stamps the row with `now`; subtracting keeps the old stamp. */
  function UpdateStock(s: State, productId: ProductId, quantity: int, d: Direction, now: Time): (r: Step<Inventory>)
    ensures productId !in s.inventory ==> r == Step(s, Err(NotFound))
    ensures productId in s.inventory && Moved(s.inventory[productId].currentStock, quantity, d) < 0
            ==> r == Step(s, Err(InsufficientStock))
    ensures productId in s.inventory && Moved(s.inventory[productId].currentStock, quantity, d) >= 0 ==> r.out.Ok?
    ensures r.out.Err? ==> r.next == s
    ensures r.out.Ok? ==>
      && productId in s.inventory
      && r.next == s.(inventory := s.inventory[productId := r.out.value])
      && r.out.value.currentStock >= 0
      && r.out.value.currentStock - s.inventory[productId].currentStock == (if d == Add then quantity else -quantity)
      && r.out.value.minimumStock == s.inventory[productId].minimumStock
      && r.out.value.maximumStock == s.inventory[productId].maximumStock
      && r.out.value.lastRestockedAt == (if d == Add then Some(now) else s.inventory[productId].lastRestockedAt)
  {
    match FindByProductId(s, productId)
    case Err(e) => Step(s, Err(e))
    case Ok(row) =>
      var newStock := Moved(row.currentStock, quantity, d);
      if newStock < 0 then Step(s, Err(InsufficientStock))
      else
        var row' := row.(currentStock := newStock,
                         lastRestockedAt := if d == Add then Some(now) else row.lastRestockedAt);
        Step(s.(inventory := s.inventory[productId := row']), Ok(row'))
  }

  /** Moving the counter one way and then back by the same quantity restores
      it, and on a non-negative counter the move back never fails: a
      successful update is always reversible. */
  lemma UpdateStockReversible(s: State, productId: ProductId, quantity: int, d: Direction, t1: Time, t2: Time)
    requires productId in s.inventory && s.inventory[productId].currentStock >= 0
    requires UpdateStock(s, productId, quantity, d, t1).out.Ok?
    ensures UpdateStock(UpdateStock(s, productId, quantity, d, t1).next, productId, quantity, Opposite(d), t2).out.Ok?
    ensures UpdateStock(UpdateStock(s, productId, quantity, d, t1).next, productId, quantity, Opposite(d), t2).out.value.currentStock
            == s.inventory[productId].currentStock
  {
  }

  /** The fields PATCH /inventory/:id may set; absent fields are kept. */
  datatype InventoryPatch = InventoryPatch(
    currentStock: Option<int>,
    minimumStock: Option<int>,
    maximumStock: Option<int>)

  /** Every supplied field is at least 0. */
  predicate ValidInventoryPatch(p: InventoryPatch) {
    && (p.currentStock.Some? ==> p.currentStock.value >= 0)
    && (p.minimumStock.Some? ==> p.minimumStock.value >= 0)
    && (p.maximumStock.Some? ==> p.maximumStock.value >= 0)
  }

  /** The manual edit of a row: supplied fields overwrite, and the restock
      stamp moves to `now` only when the stock is raised above its old value. */
  function UpdateInventory(s: State, productId: ProductId, patch: InventoryPatch, now: Time): (r: Step<Inventory>)
    requires ValidInventoryPatch(patch)
    ensures r.out.Err? <==> productId !in s.inventory
    ensures r.out.Err? ==> r == Step(s, Err(NotFound))
    ensures r.out.Ok? ==>
      var prev := s.inventory[productId];
      && r.next == s.(inventory := s.inventory[productId := r.out.value])
      && r.out.value.currentStock == patch.currentStock.GetOr(prev.currentStock)
      && r.out.value.minimumStock == patch.minimumStock.GetOr(prev.minimumStock)
      && r.out.value.maximumStock == patch.maximumStock.GetOr(prev.maximumStock)
      && (r.out.value.currentStock > prev.currentStock ==> r.out.value.lastRestockedAt == Some(now))
      && (r.out.value.currentStock <= prev.currentStock ==> r.out.value.lastRestockedAt == prev.lastRestockedAt)
  {
    if productId !in s.inventory then Step(s, Err(NotFound))
    else
      var prev := s.inventory[productId];
      var written := prev.(currentStock := patch.currentStock.GetOr(prev.currentStock),
                           minimumStock := patch.minimumStock.GetOr(prev.minimumStock),
                           maximumStock := patch.maximumStock.GetOr(prev.maximumStock));
      var raised := patch.currentStock.Some? && patch.currentStock.value > prev.currentStock;
      var row := if raised then written.(lastRestockedAt := Some(now)) else written;
      Step(s.(inventory := s.inventory[productId := row]), Ok(row))
  }

  /** A row is low on stock when its counter is at or below a configured
      (positive) minimum; a minimum of 0 means no threshold. */
  predicate IsLowStock(row: Inventory) {
    row.currentStock <= row.minimumStock && row.minimumStock > 0
  }

  /** GET /inventory/low-stock: the products whose row is low on stock. */
  function GetLowStockItems(s: State): (r: set<ProductId>)
    ensures r <= s.inventory.Keys
    ensures forall p :: p in s.inventory ==> (p in r <==> IsLowStock(s.inventory[p]))
  {
    set p | p in s.inventory && IsLowStock(s.inventory[p])
  }

  /** The filter part of GET /inventory. */
  datatype InventoryQuery = InventoryQuery(lowStock: bool, minStock: Option<int>, maxStock: Option<int>)

  predicate MatchesQuery(row: Inventory, q: InventoryQuery) {
    && (q.lowStock ==> row.currentStock <= row.minimumStock)
    && (q.minStock.Some? ==> row.currentStock >= q.minStock.value)
    && (q.maxStock.Some? ==> row.currentStock <= q.maxStock.value)
  }

  /** The products whose row passes every filter of the query. */
  function FilterInventory(s: State, q: InventoryQuery): (r: set<ProductId>)
    ensures r <= s.inventory.Keys
    ensures forall p :: p in s.inventory ==> (p in r <==> MatchesQuery(s.inventory[p], q))
  {
    set p | p in s.inventory && MatchesQuery(s.inventory[p], q)
  }

  /** Counters and thresholds are never negative. */
  ghost predicate RowsNonNegative(s: State) {
    forall p :: p in s.inventory ==>
      s.inventory[p].currentStock >= 0 && s.inventory[p].minimumStock >= 0 && s.inventory[p].maximumStock >= 0
  }

  /** The lowStock filter of GET /inventory omits the "minimum > 0" guard, so
      it returns every low-stock row and, on a store whose counters are
      non-negative, exactly one kind of row more: those at 0 with minimum 0. */
  lemma LowStockFilterExtra(s: State)
    requires RowsNonNegative(s)
    ensures GetLowStockItems(s) <= FilterInventory(s, InventoryQuery(true, None, None))
    ensures forall p :: p in FilterInventory(s, InventoryQuery(true, None, None)) - GetLowStockItems(s) <==>
      p in s.inventory && s.inventory[p].currentStock == 0 && s.inventory[p].minimumStock == 0
  {
  }

  /** minStock and maxStock bound the counter inclusively: with both set to
      the same value, exactly the rows holding that value remain. */
  lemma StockRangeInclusive(s: State, n: int)
    ensures forall p :: p in FilterInventory(s, InventoryQuery(false, Some(n), Some(n))) <==>
      p in s.inventory && s.inventory[p].currentStock == n
  {
  }
}

=== FILE: ledger.dfy ===
/** The stock ledger: the global consistency between transaction rows and
    inventory counters, and the service calls viewed as a state machine. */
module Ledger {
  import opened Results
  import opened Entities
  import opened TransactionDto
  import InventoryService
  import TransactionsService
  import ProductsService

  /** What one transaction contributes to the stock of product `p`. */
  function Contribution(t: Transaction, p: ProductId): int {
    if t.productId == p then TransactionsService.SignedQuantity(t.kind, t.quantity) else 0
  }

  ghost function Pick(keys: set<TransactionId>): TransactionId
    requires keys != {}
  {
    var k :| k in keys; k
  }

  /** The total contribution to product `p` of the transactions under `keys`. */
  ghost function SumOver(keys: set<TransactionId>, txns: map<TransactionId, Transaction>, p: ProductId): int
    requires keys <= txns.Keys
    decreases keys
  {
    if keys == {} then 0
    else
      var k := Pick(keys);
      Contribution(txns[k], p) + SumOver(keys - {k}, txns, p)
  }

  /** The stock product `p` should hold: the signed quantities of all live
      transactions for it, on top of the 0 its row was created with. */
  ghost function NetStock(txns: map<TransactionId, Transaction>, p: ProductId): int {
    SumOver(txns.Keys, txns, p)
  }

  /** The sum does not depend on the order keys are taken in: any key can be
      split off first. */
  lemma {:induction false} SumOverSplit(keys: set<TransactionId>, txns: map<TransactionId, Transaction>, p: ProductId, k: TransactionId)
    requires keys <= txns.Keys && k in keys
    ensures SumOver(keys, txns, p) == Contribution(txns[k], p) + SumOver(keys - {k}, txns, p)
    decreases keys
  {
    var j := Pick(keys);
    if j != k {
      SumOverSplit(keys - {j}, txns, p, k);
      SumOverSplit(keys - {k}, txns, p, j);
      assert keys - {j} - {k} == keys - {k} - {j};
    }
  }

  /** Two ledgers that agree on the contribution of every key sum alike. */
  lemma {:induction false} SumOverFrame(keys: set<TransactionId>, txns: map<TransactionId, Transaction>,
                                        txns': map<TransactionId, Transaction>, p: ProductId)
    requires keys <= txns.Keys && keys <= txns'.Keys
    requires forall k :: k in keys ==> Contribution(txns[k], p) == Contribution(txns'[k], p)
    ensures SumOver(keys, txns, p) == SumOver(keys, txns', p)
    decreases keys
  {
    if keys != {} {
      var k := Pick(keys);
      SumOverFrame(keys - {k}, txns, txns', p);
    }
  }

  /** Transactions that are all for other products sum to 0. */
  lemma {:induction false} SumOverUnreferenced(keys: set<TransactionId>, txns: map<TransactionId, Transaction>, p: ProductId)
    requires keys <= txns.Keys
    requires forall k :: k in keys ==> txns[k].productId != p
    ensures SumOver(keys, txns, p) == 0
    decreases keys
  {
    if keys != {} {
      var k := Pick(keys);
      SumOverUnreferenced(keys - {k}, txns, p);
    }
  }

  /** Adding a transaction adds its contribution. */
  lemma NetStockInsert(txns: map<TransactionId, Transaction>, id: TransactionId, t: Transaction, p: ProductId)
    requires id !in txns
    ensures NetStock(txns[id := t], p) == Contribution(t, p) + NetStock(txns, p)
  {
    var m := txns[id := t];
    SumOverSplit(m.Keys, m, p, id);
    assert m.Keys - {id} == txns.Keys;
    SumOverFrame(txns.Keys, m, txns, p);
  }

  /** Deleting a transaction takes its contribution away. */
  lemma NetStockDelete(txns: map<TransactionId, Transaction>, id: TransactionId, p: ProductId)
    requires id in txns
    ensures NetStock(txns - {id}, p) == NetStock(txns, p) - Contribution(txns[id], p)
  {
    var m := txns - {id};
    SumOverSplit(txns.Keys, txns, p, id);
    assert m.Keys == txns.Keys - {id};
    SumOverFrame(m.Keys, m, txns, p);
  }

  /** Rewriting a transaction trades its old contribution for its new one. */
  lemma NetStockReplace(txns: map<TransactionId, Transaction>, id: TransactionId, t: Transaction, p: ProductId)
    requires id in txns
    ensures NetStock(txns[id := t], p) == NetStock(txns, p) - Contribution(txns[id], p) + Contribution(t, p)
  {
    var m := txns[id := t];
    SumOverSplit(m.Keys, m, p, id);
    SumOverSplit(txns.Keys, txns, p, id);
    assert m.Keys - {id} == txns.Keys - {id};
    SumOverFrame(txns.Keys - {id}, m, txns, p);
  }

  /** The ledger invariant: every inventory counter equals the net effect of
      the live transactions of its product. */
  ghost predicate StockMatchesLedger(s: State) {
    forall p :: p in s.inventory ==> s.inventory[p].currentStock == NetStock(s.transactions, p)
  }

  predicate SkusUnique(s: State) {
    forall p, q :: p in s.products && q in s.products && p != q ==> s.products[p].sku != s.products[q].sku
  }

  /** The invariants every request keeps, manual edits included: counters and
      thresholds are non-negative, every product has its inventory row, SKUs
      are unique, and every transaction moves at least one unit. */
  ghost predicate WellFormed(s: State) {
    && InventoryService.RowsNonNegative(s)
    && (forall p :: p in s.products ==> p in s.inventory)
    && SkusUnique(s)
    && (forall t :: t in s.transactions ==> s.transactions[t].quantity >= 1)
  }

  /** One request against the backend. Generated ids travel with the request
      that consumes them. */
  datatype Op =
    | CreateProduct(productId: ProductId, product: ProductsService.CreateProductDto)
    | UpdateProduct(productId: ProductId, productPatch: ProductsService.ProductPatch)
    | RemoveProduct(productId: ProductId)
    | RecordTransaction(transactionId: TransactionId, body: CreateTransactionDto, now: Time)
    | EditTransaction(transactionId: TransactionId, patch: TransactionsService.TransactionPatch)
    | VoidTransaction(transactionId: TransactionId, now: Time)
    | EditInventory(productId: ProductId, inventoryPatch: InventoryService.InventoryPatch, now: Time)

  /** The store after a request and the error it was answered with, if any. */
  datatype Effect = Effect(next: State, failure: Option<Error>)

  function Summary<V>(step: Step<V>): Effect {
    Effect(step.next, if step.out.Err? then Some(step.out.error) else None)
  }

  /** Serves one request. Bodies failing validation are answered with
      BadRequest before any service runs. An id the uuid generator would
      never produce (one already in use) stands for no request at all. A
      failed request leaves the store exactly as it was; in particular a
      transaction whose stock update failed leaves no row behind. */
  function Execute(s: State, op: Op): (e: Effect)
    ensures e.failure.Some? ==> e.next == s
    ensures op.CreateProduct? && !ProductsService.ValidCreateProduct(op.product) ==> e == Effect(s, Some(BadRequest))
    ensures op.RecordTransaction? && !ValidCreateTransaction(op.body) ==> e == Effect(s, Some(BadRequest))
    ensures op.UpdateProduct? && !ProductsService.ValidProductPatch(op.productPatch) ==> e == Effect(s, Some(BadRequest))
    ensures op.EditInventory? && !InventoryService.ValidInventoryPatch(op.inventoryPatch) ==> e == Effect(s, Some(BadRequest))
  {
    match op
    case CreateProduct(id, body) =>
      if !ProductsService.ValidCreateProduct(body) then Effect(s, Some(BadRequest))
      else if !ProductsService.FreshProductId(s, id) then Effect(s, None)
      else Summary(ProductsService.Create(s, body, id))
    case UpdateProduct(id, patch) =>
      if !ProductsService.ValidProductPatch(patch) then Effect(s, Some(BadRequest))
      else Summary(ProductsService.Update(s, id, patch))
    case RemoveProduct(id) =>
      Summary(ProductsService.Remove(s, id))
    case RecordTransaction(id, body, now) =>
      if !ValidCreateTransaction(body) then Effect(s, Some(BadRequest))
      else if id in s.transactions then Effect(s, None)
      else Summary(TransactionsService.Create(s, body, id, now))
    case EditTransaction(id, patch) =>
      Summary(TransactionsService.Update(s, id, patch))
    case VoidTransaction(id, now) =>
      Summary(TransactionsService.Remove(s, id, now))
    case EditInventory(p, patch, now) =>
      if !InventoryService.ValidInventoryPatch(patch) then Effect(s, Some(BadRequest))
      else Summary(InventoryService.UpdateInventory(s, p, patch, now))
  }

  /** The store after serving `ops` in order. */
  function Run(s: State, ops: seq<Op>): State
    decreases |ops|
  {
    if ops == [] then s else Run(Execute(s, ops[0]).next, ops[1..])
  }

  lemma ProductCreateKeepsWellFormed(s: State, body: ProductsService.CreateProductDto, id: ProductId)
    requires WellFormed(s) && ProductsService.FreshProductId(s, id)
    ensures WellFormed(ProductsService.Create(s, body, id).next)
  {
  }

  lemma ProductUpdateKeepsWellFormed(s: State, id: ProductId, patch: ProductsService.ProductPatch)
    requires WellFormed(s) && ProductsService.ValidProductPatch(patch)
    ensures WellFormed(ProductsService.Update(s, id, patch).next)
  {
  }

  lemma TransactionCreateKeepsWellFormed(s: State, body: CreateTransactionDto, id: TransactionId, now: Time)
    requires WellFormed(s) && ValidCreateTransaction(body) && id !in s.transactions
    ensures WellFormed(TransactionsService.Create(s, body, id, now).next)
  {
  }

  lemma TransactionUpdateKeepsWellFormed(s: State, id: TransactionId, patch: TransactionsService.TransactionPatch)
    requires WellFormed(s)
    ensures WellFormed(TransactionsService.Update(s, id, patch).next)
  {
  }

  lemma TransactionRemoveKeepsWellFormed(s: State, id: TransactionId, now: Time)
    requires WellFormed(s)
    ensures WellFormed(TransactionsService.Remove(s, id, now).next)
  {
  }

  lemma InventoryEditKeepsWellFormed(s: State, p: ProductId, patch: InventoryService.InventoryPatch, now: Time)
    requires WellFormed(s) && InventoryService.ValidInventoryPatch(patch)
    ensures WellFormed(InventoryService.UpdateInventory(s, p, patch, now).next)
  {
  }

  /** Every request keeps the store well formed. */
  lemma ExecutePreservesWellFormed(s: State, op: Op)
    requires WellFormed(s)
    ensures WellFormed(Execute(s, op).next)
  {
    match op
    case CreateProduct(id, body) =>
      if ProductsService.FreshProductId(s, id) {
        ProductCreateKeepsWellFormed(s, body, id);
      }
    case UpdateProduct(id, patch) =>
      if ProductsService.ValidProductPatch(patch) {
        ProductUpdateKeepsWellFormed(s, id, patch);
      }
    case RemoveProduct(id) =>
    case RecordTransaction(id, body, now) =>
      if ValidCreateTransaction(body) && id !in s.transactions {
        TransactionCreateKeepsWellFormed(s, body, id, now);
      }
    case EditTransaction(id, patch) =>
      TransactionUpdateKeepsWellFormed(s, id, patch);
    case VoidTransaction(id, now) =>
      TransactionRemoveKeepsWellFormed(s, id, now);
    case EditInventory(p, patch, now) =>
      if InventoryService.ValidInventoryPatch(patch) {
        InventoryEditKeepsWellFormed(s, p, patch, now);
      }
  }

  lemma ProductCreateKeepsLedger(s: State, body: ProductsService.CreateProductDto, id: ProductId)
    requires StockMatchesLedger(s) && ProductsService.FreshProductId(s, id)
    ensures StockMatchesLedger(ProductsService.Create(s, body, id).next)
  {
    SumOverUnreferenced(s.transactions.Keys, s.transactions, id);
  }

  lemma TransactionCreateKeepsLedger(s: State, body: CreateTransactionDto, id: TransactionId, now: Time)
    requires StockMatchesLedger(s) && ValidCreateTransaction(body) && id !in s.transactions
    ensures StockMatchesLedger(TransactionsService.Create(s, body, id, now).next)
  {
    var s' := TransactionsService.Create(s, body, id, now).next;
    if s' != s {
      var t := TransactionsService.NewTransaction(body, now);
      forall p | p in s'.inventory
        ensures s'.inventory[p].currentStock == NetStock(s'.transactions, p)
      {
        NetStockInsert(s.transactions, id, t, p);
      }
    }
  }

  lemma TransactionUpdateKeepsLedger(s: State, id: TransactionId, patch: TransactionsService.TransactionPatch)
    requires StockMatchesLedger(s)
    ensures StockMatchesLedger(TransactionsService.Update(s, id, patch).next)
  {
    var r := TransactionsService.Update(s, id, patch);
    if r.out.Ok? {
      forall p | p in r.next.inventory
        ensures r.next.inventory[p].currentStock == NetStock(r.next.transactions, p)
      {
        NetStockReplace(s.transactions, id, r.out.value, p);
      }
    }
  }

  lemma TransactionRemoveKeepsLedger(s: State, id: TransactionId, now: Time)
    requires StockMatchesLedger(s)
    ensures StockMatchesLedger(TransactionsService.Remove(s, id, now).next)
  {
    var r := TransactionsService.Remove(s, id, now);
    if r.out.Ok? {
      forall p | p in r.next.inventory
        ensures r.next.inventory[p].currentStock == NetStock(r.next.transactions, p)
      {
        NetStockDelete(s.transactions, id, p);
      }
    }
  }

  /** Every request other than a manual inventory edit keeps the ledger
      invariant. */
  lemma ExecutePreservesLedger(s: State, op: Op)
    requires StockMatchesLedger(s) && !op.EditInventory?
    ensures StockMatchesLedger(Execute(s, op).next)
  {
    match op
    case CreateProduct(id, body) =>
      if ProductsService.FreshProductId(s, id) {
        ProductCreateKeepsLedger(s, body, id);
      }
    case UpdateProduct(id, patch) =>
    case RemoveProduct(id) =>
    case RecordTransaction(id, body, now) =>
      if ValidCreateTransaction(body) && id !in s.transactions {
        TransactionCreateKeepsLedger(s, body, id, now);
      }
    case EditTransaction(id, patch) =>
      TransactionUpdateKeepsLedger(s, id, patch);
    case VoidTransaction(id, now) =>
      TransactionRemoveKeepsLedger(s, id, now);
  }

  predicate NoManualEdits(ops: seq<Op>) {
    forall i :: 0 <= i < |ops| ==> !ops[i].EditInventory?
  }

  /** Any history of requests keeps the store well formed. */
  lemma {:induction false} RunPreservesWellFormed(s: State, ops: seq<Op>)
    requires WellFormed(s)
    ensures WellFormed(Run(s, ops))
    decreases |ops|
  {
    if ops != [] {
      ExecutePreservesWellFormed(s, ops[0]);
      RunPreservesWellFormed(Execute(s, ops[0]).next, ops[1..]);
    }
  }

  /** Any history without manual inventory edits keeps every counter equal
      to the net effect of the live transactions of its product. */
  lemma {:induction false} RunPreservesLedger(s: State, ops: seq<Op>)
    requires StockMatchesLedger(s) && NoManualEdits(ops)
    ensures StockMatchesLedger(Run(s, ops))
    decreases |ops|
  {
    if ops != [] {
      ExecutePreservesLedger(s, ops[0]);
      assert NoManualEdits(ops[1..]) by {
        forall i | 0 <= i < |ops[1..]| ensures !ops[1..][i].EditInventory? {
          assert ops[1..][i] == ops[i + 1];
        }
      }
      RunPreservesLedger(Execute(s, ops[0]).next, ops[1..]);
    }
  }

  /** From the empty store, every history without manual edits ends in a
      well-formed store whose counters are exactly the ledger sums. */
  lemma FromEmptyStore(ops: seq<Op>)
    requires NoManualEdits(ops)
    ensures WellFormed(Run(EmptyState, ops))
    ensures StockMatchesLedger(Run(EmptyState, ops))
    ensures forall p :: p in Run(EmptyState, ops).inventory ==> NetStock(Run(EmptyState, ops).transactions, p) >= 0
  {
    RunPreservesWellFormed(EmptyState, ops);
    RunPreservesLedger(EmptyState, ops);
  }

  /** The edit as written moves a transaction to another product without
      moving any stock: from any store that satisfies the ledger invariant,
      such an edit succeeds and leaves a store that does not. */
  lemma UpdateAsWrittenBreaksLedger(s: State, id: TransactionId, patch: TransactionsService.TransactionPatch)
    requires StockMatchesLedger(s)
    requires id in s.transactions && s.transactions[id].quantity >= 1 && s.transactions[id].productId in s.inventory
    requires !TransactionsService.ChangesStockEffect(s.transactions[id], patch)
    requires TransactionsService.MovesToOtherProduct(s.transactions[id], patch)
    requires patch.productId.value in s.products
    ensures TransactionsService.UpdateAsWritten(s, id, patch).out.Ok?
    ensures !StockMatchesLedger(TransactionsService.UpdateAsWritten(s, id, patch).next)
  {
    var r := TransactionsService.UpdateAsWritten(s, id, patch);
    var t := s.transactions[id];
    NetStockReplace(s.transactions, id, r.out.value, t.productId);
    assert r.next.inventory[t.productId].currentStock != NetStock(r.next.transactions, t.productId);
  }

  /** A manual edit is the one request that can break the ledger invariant. */
  lemma ManualEditBreaksLedger()
    ensures var s := State(map[], map["p" := ProductsService.SeedRow], map[]);
      && StockMatchesLedger(s)
      && !StockMatchesLedger(Execute(s, EditInventory("p", InventoryService.InventoryPatch(Some(5), None, None), 0)).next)
  {
  }
}

=== FILE: products.dfy ===
/** The product service: SKU uniqueness, the inventory row every product is
    created with, and the guard on deleting a product with history. */
module ProductsService {
  import opened Results
  import opened Entities
  import Repository

  datatype CreateProductDto = CreateProductDto(
    name: string,
    sku: string,
    description: Option<string>,
    price: Cents,
    cost: Option<Cents>,
    unit: Option<string>,
    categoryId: string,
    isActive: Option<bool>)

  /** The decorator constraints of CreateProductDto, one per field. */
  predicate ValidName(name: string) {
    name != "" && ValidatorLength(name) <= 200
  }

  predicate ValidSku(sku: string) {
    sku != "" && ValidatorLength(sku) <= 50
  }

  predicate ValidUnit(unit: string) {
    ValidatorLength(unit) <= 50
  }

  /** A body the validation pipe lets through to POST /products: name and
      SKU non-empty and bounded, non-negative price and cost, a bounded unit
      and a uuid-shaped category. */
  predicate ValidCreateProduct(dto: CreateProductDto) {
    && ValidName(dto.name)
    && ValidSku(dto.sku)
    && dto.price >= 0
    && (dto.cost.Some? ==> dto.cost.value >= 0)
    && (dto.unit.Some? ==> ValidUnit(dto.unit.value))
    && IsUuid(dto.categoryId)
  }

  /** The fields PATCH /products/:id may carry; absent fields are kept. */
  datatype ProductPatch = ProductPatch(
    name: Option<string>,
    sku: Option<string>,
    description: Option<string>,
    price: Option<Cents>,
    cost: Option<Cents>,
    unit: Option<string>,
    categoryId: Option<string>,
    isActive: Option<bool>)

  /** A patch the validation pipe lets through to PATCH /products/:id: every
      supplied field meets the constraint the create body puts on it. */
  predicate ValidProductPatch(patch: ProductPatch) {
    && (patch.name.Some? ==> ValidName(patch.name.value))
    && (patch.sku.Some? ==> ValidSku(patch.sku.value))
    && (patch.price.Some? ==> patch.price.value >= 0)
    && (patch.cost.Some? ==> patch.cost.value >= 0)
    && (patch.unit.Some? ==> ValidUnit(patch.unit.value))
    && (patch.categoryId.Some? ==> IsUuid(patch.categoryId.value))
  }

  /** Some stored product already carries this SKU. */
  predicate SkuTaken(s: State, sku: string) {
    exists p :: p in s.products && s.products[p].sku == sku
  }

  /** A product id the store's uuid generator may hand out: it has never
      been used by a product, an inventory row or a transaction. */
  predicate FreshProductId(s: State, id: ProductId) {
    && id !in s.products
    && id !in s.inventory
    && forall t :: t in s.transactions ==> s.transactions[t].productId != id
  }

  /** The inventory row every new product starts with. */
  const SeedRow := Inventory(0, 0, 0, None)

  /** POST /products. A SKU already in use is refused; otherwise the product
      is stored together with its zeroed inventory row. */
  function Create(s: State, dto: CreateProductDto, id: ProductId): (r: Step<Product>)
    requires FreshProductId(s, id)
    ensures r.out.Err? <==> exists p :: p in s.products && s.products[p].sku == dto.sku
    ensures r.out.Err? ==> r == Step(s, Err(Conflict))
    ensures r.out.Ok? ==>
      && r.out.value == Product(dto.name, dto.sku, dto.description, dto.price, dto.cost, dto.unit,
                                dto.isActive.GetOr(true), dto.categoryId)
      && r.next.products == s.products[id := r.out.value]
      && id in r.next.inventory
      && r.next.inventory == s.inventory[id := r.next.inventory[id]]
      && r.next.inventory[id].currentStock == 0
      && r.next.inventory[id].minimumStock == 0
      && r.next.inventory[id].maximumStock == 0
      && r.next.inventory[id].lastRestockedAt == None
      && r.next.transactions == s.transactions
  {
    if SkuTaken(s, dto.sku) then Step(s, Err(Conflict))
    else
      var product := Product(dto.name, dto.sku, dto.description, dto.price, dto.cost, dto.unit,
                             dto.isActive.GetOr(true), dto.categoryId);
      Step(State(s.products[id := product], s.inventory[id := SeedRow], s.transactions), Ok(product))
  }

  /** The product with this id, or NotFound. */
  function FindOne(s: State, id: ProductId): (r: Result<Product>)
    ensures r.Ok? <==> id in s.products
    ensures r.Ok? ==> r.value == s.products[id]
    ensures r.Err? ==> r.error == NotFound
  {
    if id in s.products then Ok(s.products[id]) else Err(NotFound)
  }

  function ApplyPatch(p: Product, patch: ProductPatch): Product {
    Product(
      patch.name.GetOr(p.name),
      patch.sku.GetOr(p.sku),
      if patch.description.Some? then patch.description else p.description,
      patch.price.GetOr(p.price),
      if patch.cost.Some? then patch.cost else p.cost,
      if patch.unit.Some? then patch.unit else p.unit,
      patch.isActive.GetOr(p.isActive),
      patch.categoryId.GetOr(p.categoryId))
  }

  /** The SKU check runs only for a supplied, non-empty SKU that differs from
      the product's own. */
  predicate SkuChangeRequested(p: Product, patch: ProductPatch) {
    patch.sku.Some? && patch.sku.value != "" && patch.sku.value != p.sku
  }

  /** PATCH /products/:id. A new SKU already used by another product is
      refused; otherwise the supplied fields overwrite. */
  function Update(s: State, id: ProductId, patch: ProductPatch): (r: Step<Product>)
    ensures id !in s.products ==> r == Step(s, Err(NotFound))
    ensures r.out.Err? ==> r.next == s
    ensures id in s.products ==>
      (r.out == Err(Conflict) <==>
         SkuChangeRequested(s.products[id], patch)
         && exists q :: q in s.products && q != id && s.products[q].sku == patch.sku.value)
    ensures id in s.products && patch.sku == Some(s.products[id].sku) ==> r.out.Ok?
    ensures r.out.Err? ==> id !in s.products || r.out == Err(Conflict)
    ensures r.out.Ok? ==>
      && id in s.products
      && r.next == s.(products := s.products[id := r.out.value])
      && r.out.value.sku == patch.sku.GetOr(s.products[id].sku)
      && r.out.value.name == patch.name.GetOr(s.products[id].name)
      && r.out.value.price == patch.price.GetOr(s.products[id].price)
  {
    match FindOne(s, id)
    case Err(e) => Step(s, Err(e))
    case Ok(p) =>
      if SkuChangeRequested(p, patch) && SkuTaken(s, patch.sku.value) then Step(s, Err(Conflict))
      else
        var p' := ApplyPatch(p, patch);
        Step(s.(products := s.products[id := p']), Ok(p'))
  }

  /** The product has at least one recorded transaction. */
  predicate HasTransactions(s: State, id: ProductId) {
    exists t :: t in s.transactions && s.transactions[t].productId == id
  }

  /** DELETE /products/:id with the guard its comment and message describe:
      a product with transaction history is not deleted. A product without
      history is deleted together with its inventory row; the row's foreign
      key to the product has no delete rule, so the product row cannot go
      while the inventory row stays. */
  function Remove(s: State, id: ProductId): (r: Step<()>)
    ensures id !in s.products ==> r == Step(s, Err(NotFound))
    ensures r.out.Err? ==> r.next == s
    ensures id in s.products ==> (r.out == Err(Conflict) <==> exists t :: t in s.transactions && s.transactions[t].productId == id)
    ensures id in s.products && !HasTransactions(s, id) ==> r.out.Ok?
    ensures r.out.Ok? ==> r.next == State(s.products - {id}, s.inventory - {id}, s.transactions)
    ensures r.out.Ok? ==> id in s.products && id !in r.next.products && id !in r.next.inventory
  {
    match FindOne(s, id)
    case Err(e) => Step(s, Err(e))
    case Ok(_) =>
      if HasTransactions(s, id) then Step(s, Err(Conflict))
      else
        var (products, _) := Repository.Delete(s.products, id);
        var (inventory, _) := Repository.Delete(s.inventory, id);
        Step(State(products, inventory, s.transactions), Ok(()))
  }

  /** What the guard's query counts as written: products left-joined to their
      transactions, filtered to this product id, counted by distinct product
      key. The join never drops the product row, so an existing product
      counts 1 whether or not it has transactions. */
  function JoinedProductCount(s: State, id: ProductId): (n: nat)
    ensures id in s.products ==> n >= 1
  {
    if id in s.products then 1 else 0
  }

  /** DELETE /products/:id with the guard as written: the joined count is
      compared with 0. */
  function RemoveAsWritten(s: State, id: ProductId): (r: Step<()>)
    ensures id !in s.products ==> r == Step(s, Err(NotFound))
    ensures r.out.Err? ==> r.next == s
  {
    match FindOne(s, id)
    case Err(e) => Step(s, Err(e))
    case Ok(_) =>
      if JoinedProductCount(s, id) > 0 then Step(s, Err(Conflict))
      else
        var (rest, _) := Repository.Delete(s.products, id);
        Step(s.(products := rest), Ok(()))
  }

  /** As written, no existing product can ever be deleted: the guard fires
      for every product, with or without transactions. */
  lemma RemoveAsWrittenAlwaysConflicts(s: State, id: ProductId)
    requires id in s.products
    ensures RemoveAsWritten(s, id) == Step(s, Err(Conflict))
  {
  }

  /** A store holding one product with no transactions: the corrected guard
      deletes it, the guard as written refuses with Conflict. */
  lemma RemoveGuardCounterexample()
    ensures var s := State(map["p" := Product("bolt", "B-1", None, 100, None, None, true, "c")],
                           map["p" := SeedRow], map[]);
      && RemoveAsWritten(s, "p").out == Err(Conflict)
      && Remove(s, "p").out == Ok(())
  {
  }
}

=== FILE: repository.dfy ===
/** The generic data-access layer every service inherits: deletion by
    primary key and offset pagination. */
module Repository {
  import opened Results

  /** Number of rows a delete by primary key affects. */
  function Affected<K, V>(m: map<K, V>, id: K): nat {
    if id in m then 1 else 0
  }

  /** Deletes the row with key `id`; the flag reports whether any row was affected. */
  function Delete<K, V>(m: map<K, V>, id: K): (r: (map<K, V>, bool))
    ensures r.1 <==> id in m
    ensures r.0.Keys == m.Keys - {id}
    ensures forall k :: k in r.0 ==> r.0[k] == m[k]
    ensures |r.0| == if r.1 then |m| - 1 else |m|
  {
    var rest := m - {id};
    assert rest.Keys == m.Keys - {id};
    (rest, Affected(m, id) > 0)
  }

  datatype SortOrder = Asc | Desc

  /** The pagination options a caller passes. */
  datatype PageRequest = PageRequest(
    page: int,
    limit: int,
    sortBy: Option<string>,
    sortOrder: Option<SortOrder>)

  /** What is handed to the store: offset, row limit and the optional ordering. */
  datatype StoreQuery = StoreQuery(skip: int, take: int, order: Option<(string, SortOrder)>)

  datatype Page<T> = Page(data: seq<T>, total: nat, page: int, limit: int, totalPages: nat)

  /** Math.ceil(total / limit) for a positive limit. */
  function CeilDiv(total: nat, limit: int): (r: nat)
    requires limit >= 1
    ensures r * limit >= total
    ensures r > 0 ==> (r - 1) * limit < total
    ensures r == 0 <==> total == 0
  {
    var r := (total + limit - 1) / limit;
    var m := (total + limit - 1) % limit;
    assert total + limit - 1 == limit * r + m && 0 <= m < limit;
    assert r * limit == limit * r;
    assert (r - 1) * limit == r * limit - limit;
    r
  }

  /** a <= b scales to a * c <= b * c for a non-negative c. */
  lemma MulMonotone(a: int, b: int, c: int)
    requires a <= b && c >= 0
    ensures a * c <= b * c
  {
  }

  /** The store query paginate builds: rows are skipped by whole pages, and
      ordering is requested only when a non-empty sortBy is given, in the requested
      direction or DESC by default. */
  function PageQuery(req: PageRequest): (q: StoreQuery)
    requires req.page >= 1 && req.limit >= 1
    ensures q.skip == (req.page - 1) * req.limit && q.skip >= 0
    ensures q.take == req.limit
    ensures q.order.Some? <==> req.sortBy.Some? && req.sortBy.value != ""
    ensures q.order.Some? ==> q.order.value.0 == req.sortBy.value
    ensures q.order.Some? && req.sortOrder.Some? ==> q.order.value.1 == req.sortOrder.value
    ensures q.order.Some? && req.sortOrder.None? ==> q.order.value.1 == Desc
  {
    MulMonotone(0, req.page - 1, req.limit);
    StoreQuery(
      (req.page - 1) * req.limit,
      req.limit,
      if req.sortBy.Some? && req.sortBy.value != "" then Some((req.sortBy.value, req.sortOrder.GetOr(Desc))) else None)
  }

  /** Where page `page` starts, relative to the end of `total` rows. */
  lemma PagePosition(total: nat, page: int, limit: int)
    requires page >= 1 && limit >= 1
    ensures (page - 1) * limit >= 0
    ensures page <= CeilDiv(total, limit) ==> (page - 1) * limit < total
    ensures page > CeilDiv(total, limit) ==> (page - 1) * limit >= total
    ensures page < CeilDiv(total, limit) ==> (page - 1) * limit + limit <= total
  {
    var n := CeilDiv(total, limit);
    MulMonotone(0, page - 1, limit);
    if page <= n {
      MulMonotone(page - 1, n - 1, limit);
    } else {
      MulMonotone(n, page - 1, limit);
    }
    if page < n {
      MulMonotone(page, n - 1, limit);
      assert (page - 1) * limit + limit == page * limit;
    }
  }

  /** One page of `rows`, the matching rows in the store's order: the result
      echoes the request and holds the rows that follow the skipped pages. */
  function Paginate<T>(rows: seq<T>, req: PageRequest): (r: Page<T>)
    requires req.page >= 1 && req.limit >= 1
    ensures r.page == req.page && r.limit == req.limit
    ensures r.total == |rows|
    ensures |r.data| <= req.limit
    ensures r.data != [] ==> PageQuery(req).skip + |r.data| <= |rows|
    ensures forall i :: 0 <= i < |r.data| ==> r.data[i] == rows[PageQuery(req).skip + i]
    ensures PageQuery(req).skip < |rows| ==>
      |r.data| == if PageQuery(req).skip + req.limit <= |rows| then req.limit else |rows| - PageQuery(req).skip
  {
    var skip := PageQuery(req).skip;
    var data := Window(rows, skip, req.limit);
    Page(data, |rows|, req.page, req.limit, CeilDiv(|rows|, req.limit))
  }

  /** totalPages counts exactly the non-empty pages: every page up to it is
      non-empty, every page before the last is full, and every page after
      it is empty. */
  lemma PageCount<T>(rows: seq<T>, req: PageRequest)
    requires req.page >= 1 && req.limit >= 1
    ensures Paginate(rows, req).totalPages * req.limit >= |rows|
    ensures Paginate(rows, req).totalPages == 0 <==> |rows| == 0
    ensures req.page <= Paginate(rows, req).totalPages ==> |Paginate(rows, req).data| > 0
    ensures req.page < Paginate(rows, req).totalPages ==> |Paginate(rows, req).data| == req.limit
    ensures req.page > Paginate(rows, req).totalPages ==> Paginate(rows, req).data == []
  {
    var skip := PageQuery(req).skip;
    var n := CeilDiv(|rows|, req.limit);
    PagePosition(|rows|, req.page, req.limit);
    assert Paginate(rows, req).totalPages == n;
    assert Paginate(rows, req).data == Window(rows, skip, req.limit);
  }

  /** Pages 1 .. n of `rows` laid end to end. */
  function PagesUpTo<T>(rows: seq<T>, limit: int, n: nat): seq<T>
    requires limit >= 1
  {
    if n == 0 then []
    else PagesUpTo(rows, limit, n - 1) + Paginate(rows, PageRequest(n, limit, None, None)).data
  }

  /** The first n pages, which end at row `end` = n * limit, hold exactly
      the rows before `end`, or all rows once `end` reaches past the last one. */
  lemma {:induction false} PagesUpToPrefix<T>(rows: seq<T>, limit: int, n: nat, end: int)
    requires limit >= 1 && end == n * limit
    ensures end <= |rows| ==> PagesUpTo(rows, limit, n) == rows[..end]
    ensures end > |rows| ==> PagesUpTo(rows, limit, n) == rows
  {
    if n > 0 {
      var skip := end - limit;
      assert skip == (n - 1) * limit;
      MulMonotone(0, n - 1, limit);
      PagesUpToPrefix(rows, limit, n - 1, skip);
      var req := PageRequest(n, limit, None, None);
      assert PageQuery(req).skip == skip;
      var page := Paginate(rows, req).data;
      assert page == Window(rows, skip, limit);
      if skip >= |rows| {
        assert PagesUpTo(rows, limit, n - 1) == rows;
      } else {
        assert PagesUpTo(rows, limit, n - 1) == rows[..skip];
        var hi := if end <= |rows| then end else |rows|;
        assert page == rows[skip..hi];
        assert rows[..skip] + rows[skip..hi] == rows[..hi];
      }
    }
  }

  /** Reading every page from 1 to totalPages returns every row exactly once, in order. */
  lemma PagesCoverRows<T>(rows: seq<T>, limit: int)
    requires limit >= 1
    ensures PagesUpTo(rows, limit, CeilDiv(|rows|, limit)) == rows
  {
    var n := CeilDiv(|rows|, limit);
    PagesUpToPrefix(rows, limit, n, n * limit);
    assert n * limit == |rows| ==> rows[..n * limit] == rows;
  }

  /** The rows skip .. skip + take - 1 that exist, in order. */
  function Window<T>(rows: seq<T>, skip: nat, take: nat): (w: seq<T>)
    ensures |w| <= take
    ensures skip >= |rows| ==> w == []
    ensures skip + |w| <= |rows| || w == []
    ensures forall i :: 0 <= i < |w| ==> w[i] == rows[skip + i]
    ensures skip < |rows| && take > 0 ==> |w| > 0
    ensures skip < |rows| ==> |w| == if skip + take <= |rows| then take else |rows| - skip
  {
    if skip >= |rows| then []
    else if skip + take <= |rows| then rows[skip..skip + take]
    else rows[skip..]
  }
}

=== FILE: results.dfy ===
/** Failure-compatible result values standing in for the exceptions the
    services throw and the nullable fields the entities carry. */
module Results {

  /** The error kinds the services raise. */
  datatype Error =
    | NotFound           // NotFoundException (404)
    | Conflict           // ConflictException (409)
    | InsufficientStock  // the plain Error('Insufficient stock') thrown by updateStock
    | BadRequest         // BadRequestException (400), also what request validation answers

  /** An optional value: a nullable column or an absent DTO field. */
  datatype Option<+T> = None | Some(value: T) {
    function GetOr(default: T): T {
      match this
      case Some(v) => v
      case None => default
    }
  }

  datatype Result<+T> = Ok(value: T) | Err(error: Error)
}

=== FILE: scenarios.dfy ===
/** A concrete history: one product, a purchase, a sale and the voiding of
    the sale, with the refusals around them. */
module Scenarios {
  import opened Results
  import opened Entities
  import opened TransactionDto
  import TransactionsService
  import ProductsService

  const Widget: ProductId := "00000000-0000-0000-0000-00000000000a"
  const PurchaseId: TransactionId := "00000000-0000-0000-0000-0000000000b1"
  const SaleId: TransactionId := "00000000-0000-0000-0000-0000000000b2"

  const Tools: string := "00000000-0000-0000-0000-0000000000c1"
  const WidgetBody := ProductsService.CreateProductDto("widget", "W-1", None, 5, None, None, Tools, None)
  const WidgetProduct := Product("widget", "W-1", None, 5, None, None, true, Tools)

  /** The store right after the widget is created. */
  const Seeded := State(map[Widget := WidgetProduct], map[Widget := ProductsService.SeedRow], map[])

  lemma WidgetIdIsUuid()
    ensures IsUuid(Widget)
  {
  }

  function Body(kind: string, quantity: int, unitPrice: Option<Cents>): CreateTransactionDto {
    CreateTransactionDto(kind, quantity, unitPrice, None, None, None, Widget, None)
  }

  /** Creating the widget in the empty store gives the seeded store, with the
      widget's stock at 0. */
  lemma CreateWidget()
    ensures ProductsService.Create(EmptyState, WidgetBody, Widget) == Step(Seeded, Ok(WidgetProduct))
    ensures Seeded.inventory[Widget].currentStock == 0
  {
  }

  const PurchaseRow := Transaction(Widget, Purchase, 20, Some(2), 40, None, None, 1)
  const SaleRow := Transaction(Widget, Sale, 5, None, 0, None, None, 2)

  /** After the purchase: stock 20, stamped at time 1. */
  const Purchased := Seeded.(inventory := map[Widget := Inventory(20, 0, 0, Some(1))],
                             transactions := map[PurchaseId := PurchaseRow])

  /** After the sale: stock 15, stamp kept. */
  const Sold := Purchased.(inventory := map[Widget := Inventory(15, 0, 0, Some(1))],
                           transactions := map[PurchaseId := PurchaseRow, SaleId := SaleRow])

  /** From stock 0, a purchase of 20 at unit price 2 is recorded with total
      40, raises stock to 20 and stamps the row. */
  lemma RecordPurchase()
    ensures TransactionsService.Create(Seeded, Body("purchase", 20, Some(2)), PurchaseId, 1)
            == Step(Purchased, Ok(PurchaseRow))
  {
    WidgetIdIsUuid();
  }

  /** A sale of 5 then lowers stock to 15 and keeps the stamp. */
  lemma RecordSale()
    ensures TransactionsService.Create(Purchased, Body("sale", 5, None), SaleId, 2) == Step(Sold, Ok(SaleRow))
  {
    WidgetIdIsUuid();
  }

  /** A sale of 100 against stock 15 is refused and leaves no trace. */
  lemma RefuseOversell()
    ensures TransactionsService.Create(Sold, Body("sale", 100, None), "x", 3) == Step(Sold, Err(InsufficientStock))
  {
    WidgetIdIsUuid();
  }

  /** Voiding the sale restores stock 20 and removes the sale row; moving
      stock up stamps the row with the time of the void. */
  lemma VoidSale()
    ensures TransactionsService.Remove(Sold, SaleId, 4)
            == Step(Purchased.(inventory := map[Widget := Inventory(20, 0, 0, Some(4))]), Ok(()))
  {
    var r := TransactionsService.Remove(Sold, SaleId, 4);
    assert r.next.transactions == map[PurchaseId := PurchaseRow];
  }

  /** After the purchase, changing its quantity to 5 or moving it to another
      product is refused with BadRequest; resupplying its quantity of 20
      together with new notes is accepted and leaves the stock alone. */
  lemma EditAfterPurchase()
    ensures
      var s1 := Purchased;
      var bad := TransactionsService.Update(s1, PurchaseId,
                   TransactionsService.TransactionPatch(None, Some(5), None, None, None, None, None, None));
      var moved := TransactionsService.Update(s1, PurchaseId,
                   TransactionsService.TransactionPatch(None, None, None, None, None, None, Some("other"), None));
      var ok := TransactionsService.Update(s1, PurchaseId,
                   TransactionsService.TransactionPatch(None, Some(20), None, None, Some("x"), None, None, None));
      && bad == Step(s1, Err(BadRequest))
      && moved == Step(s1, Err(BadRequest))
      && ok.out.Ok? && ok.out.value.notes == Some("x")
      && ok.next.inventory == s1.inventory
  {
  }
}

=== FILE: transaction_dto.dfy ===
/** The body of POST /transactions and the constraints the validation pipe
    checks before the service sees it. */
module TransactionDto {
  import opened Results
  import opened Entities

  datatype CreateTransactionDto = CreateTransactionDto(
    kind: string,
    quantity: int,
    unitPrice: Option<Cents>,
    totalAmount: Option<Cents>,
    notes: Option<string>,
    reference: Option<string>,
    productId: string,
    transactionDate: Option<Time>)

  /** The decorator constraints of CreateTransactionDto, field by field. */
  predicate ValidCreateTransaction(dto: CreateTransactionDto) {
    && ParseTransactionType(dto.kind).Some?
    && dto.quantity >= 1
    && (dto.unitPrice.Some? ==> dto.unitPrice.value >= 0)
    && (dto.totalAmount.Some? ==> dto.totalAmount.value >= 0)
    && (dto.notes.Some? ==> ValidatorLength(dto.notes.value) <= 500)
    && (dto.reference.Some? ==> ValidatorLength(dto.reference.value) <= 100)
    && IsUuid(dto.productId)
  }

  /** The bounds are inclusive: a quantity of 1, notes of 500 and a reference
      of 100 characters pass; a quantity of 0, notes of 501, a reference of
      101 characters, an unknown type or a product id that is not a uuid
      each fail. A trailing variation selector does not count towards the
      bound. */
  lemma ValidationBoundaries(dto: CreateTransactionDto)
    requires ValidCreateTransaction(dto)
    ensures ValidCreateTransaction(dto.(quantity := 1))
    ensures ValidCreateTransaction(dto.(notes := Some(seq(500, _ => 'n')), reference := Some(seq(100, _ => 'r'))))
    ensures ValidCreateTransaction(dto.(notes := Some(seq(500, _ => 'n') + ['\U{FE0F}'])))
    ensures !ValidCreateTransaction(dto.(quantity := 0))
    ensures !ValidCreateTransaction(dto.(notes := Some(seq(501, _ => 'n'))))
    ensures !ValidCreateTransaction(dto.(reference := Some(seq(101, _ => 'r'))))
    ensures !ValidCreateTransaction(dto.(kind := "refund"))
    ensures !ValidCreateTransaction(dto.(productId := dto.productId[..35] + "-"))
  {
    assert (dto.productId[..35] + "-")[35] == '-';
    var selected := seq(500, _ => 'n') + ['\U{FE0F}'];
    assert selected[..500] == seq(500, _ => 'n');
    assert ValidatorLength(selected) == 500;
  }
}

=== FILE: transactions.dfy ===
/** The transaction service: recording, editing and deleting transactions,
    each coupled to the product's stock counter. */
module TransactionsService {
  import opened Results
  import opened Entities
  import opened TransactionDto
  import InventoryService
  import Repository

  /** The direction a transaction moves stock when it is recorded: purchase,
      adjustment and return add, sale subtracts. */
  function CreateDirection(k: TransactionType): (d: InventoryService.Direction)
    ensures d == InventoryService.Subtract <==> k == Sale
  {
    match k
    case Purchase => InventoryService.Add
    case Adjustment => InventoryService.Add
    case Sale => InventoryService.Subtract
    case Return => InventoryService.Add
  }

  /** The direction a transaction moves stock when it is deleted: a sale's
      units come back, every other type's units are taken away again. */
  function ReverseDirection(k: TransactionType): (d: InventoryService.Direction)
    ensures d == InventoryService.Add <==> k == Sale
  {
    match k
    case Purchase => InventoryService.Subtract
    case Adjustment => InventoryService.Subtract
    case Sale => InventoryService.Add
    case Return => InventoryService.Subtract
  }

  /** The two switch statements agree: deletion always moves stock opposite
      to recording. */
  lemma ReverseIsOpposite(k: TransactionType)
    ensures ReverseDirection(k) == InventoryService.Opposite(CreateDirection(k))
  {
  }

  /** The stock change a recorded transaction stands for. */
  function SignedQuantity(k: TransactionType, quantity: int): int {
    if CreateDirection(k) == InventoryService.Add then quantity else -quantity
  }

  /** The stored totalAmount: a supplied non-zero total wins, otherwise
      unitPrice * quantity when a non-zero unit price is supplied, otherwise
      0. A supplied 0 counts as absent. */
  function TotalAmount(unitPrice: Option<Cents>, totalAmount: Option<Cents>, quantity: int): (r: Cents)
    ensures totalAmount.Some? && totalAmount.value != 0 ==> r == totalAmount.value
    ensures totalAmount.None? || totalAmount.value == 0 ==> r == unitPrice.GetOr(0) * quantity
  {
    if totalAmount.Some? && totalAmount.value != 0 then totalAmount.value
    else if unitPrice.Some? && unitPrice.value != 0 then unitPrice.value * quantity
    else 0
  }

  /** A valid body never yields a negative total. */
  lemma TotalAmountNonNegative(dto: CreateTransactionDto)
    requires ValidCreateTransaction(dto)
    ensures TotalAmount(dto.unitPrice, dto.totalAmount, dto.quantity) >= 0
  {
  }

  /** The transaction row a valid body becomes. */
  function NewTransaction(dto: CreateTransactionDto, now: Time): (t: Transaction)
    requires ValidCreateTransaction(dto)
    ensures TypeName(t.kind) == dto.kind
    ensures t.productId == dto.productId && t.quantity == dto.quantity
    ensures t.quantity >= 1
    ensures t.unitPrice == dto.unitPrice && t.notes == dto.notes && t.reference == dto.reference
    ensures t.totalAmount == TotalAmount(dto.unitPrice, dto.totalAmount, dto.quantity)
    ensures t.transactionDate == dto.transactionDate.GetOr(now)
    ensures t.unitPrice.Some? ==> t.unitPrice.value >= 0
    ensures t.totalAmount >= 0
    ensures t.notes.Some? ==> ValidatorLength(t.notes.value) <= 500
    ensures t.reference.Some? ==> ValidatorLength(t.reference.value) <= 100
  {
    TotalAmountNonNegative(dto);
    Transaction(
      dto.productId,
      ParseTransactionType(dto.kind).value,
      dto.quantity,
      dto.unitPrice,
      TotalAmount(dto.unitPrice, dto.totalAmount, dto.quantity),
      dto.notes,
      dto.reference,
      dto.transactionDate.GetOr(now))
  }

  /** The transaction with this id, or NotFound. */
  function FindOne(s: State, id: TransactionId): (r: Result<Transaction>)
    ensures r.Ok? <==> id in s.transactions
    ensures r.Ok? ==> r.value == s.transactions[id]
    ensures r.Err? ==> r.error == NotFound
  {
    if id in s.transactions then Ok(s.transactions[id]) else Err(NotFound)
  }

  /** POST /transactions. The row is saved under the fresh id first; the
      product's stock is then moved by the type's direction; if that fails the
      saved row is removed again and the stock error is returned. */
  function Create(s: State, dto: CreateTransactionDto, id: TransactionId, now: Time): (r: Step<Transaction>)
    requires ValidCreateTransaction(dto)
    requires id !in s.transactions
    ensures r.out.Err? ==> r.next == s
    ensures var k := ParseTransactionType(dto.kind).value;
      r.out.Err? <==>
        dto.productId !in s.inventory || s.inventory[dto.productId].currentStock + SignedQuantity(k, dto.quantity) < 0
    ensures r.out.Err? ==> r.out.error == (if dto.productId in s.inventory then InsufficientStock else NotFound)
    ensures r.out.Ok? ==>
      var p := dto.productId;
      && r.out.value == NewTransaction(dto, now)
      && r.next.products == s.products
      && r.next.transactions == s.transactions[id := r.out.value]
      && p in s.inventory
      && r.next.inventory.Keys == s.inventory.Keys
      && (forall q :: q in s.inventory && q != p ==> r.next.inventory[q] == s.inventory[q])
      && r.next.inventory[p].currentStock == s.inventory[p].currentStock + SignedQuantity(r.out.value.kind, dto.quantity)
      && r.next.inventory[p].currentStock >= 0
      && r.next.inventory[p].minimumStock == s.inventory[p].minimumStock
      && r.next.inventory[p].maximumStock == s.inventory[p].maximumStock
      && r.next.inventory[p].lastRestockedAt == (if r.out.value.kind == Sale then s.inventory[p].lastRestockedAt else Some(now))
  {
    var t := NewTransaction(dto, now);
    var saved := s.(transactions := s.transactions[id := t]);
    var u := InventoryService.UpdateStock(saved, t.productId, t.quantity, CreateDirection(t.kind), now);
    if u.out.Err? then
      // compensation: the saved row is removed before the error propagates
      var (rest, _) := Repository.Delete(u.next.transactions, id);
      assert rest == s.transactions;
      Step(u.next.(transactions := rest), Err(u.out.error))
    else
      Step(u.next, Ok(t))
  }

  /** The fields PATCH /transactions/:id may carry: any part of the create
      body, the product included. */
  datatype TransactionPatch = TransactionPatch(
    kind: Option<TransactionType>,
    quantity: Option<int>,
    unitPrice: Option<Cents>,
    totalAmount: Option<Cents>,
    notes: Option<string>,
    reference: Option<string>,
    productId: Option<ProductId>,
    transactionDate: Option<Time>)

  /** The stored row with every supplied field written over it. */
  function ApplyTransactionPatch(t: Transaction, patch: TransactionPatch): Transaction {
    t.(
      productId := patch.productId.GetOr(t.productId),
      kind := patch.kind.GetOr(t.kind),
      quantity := patch.quantity.GetOr(t.quantity),
      unitPrice := if patch.unitPrice.Some? then patch.unitPrice else t.unitPrice,
      totalAmount := patch.totalAmount.GetOr(t.totalAmount),
      notes := if patch.notes.Some? then patch.notes else t.notes,
      reference := if patch.reference.Some? then patch.reference else t.reference,
      transactionDate := patch.transactionDate.GetOr(t.transactionDate))
  }

  /** The edit guard as written: a supplied quantity or type different from
      the stored one. */
  predicate ChangesStockEffect(t: Transaction, patch: TransactionPatch) {
    || (patch.quantity.Some? && patch.quantity.value != t.quantity)
    || (patch.kind.Some? && patch.kind.value != t.kind)
  }

  /** The patch names a product other than the one the row is for. */
  predicate MovesToOtherProduct(t: Transaction, patch: TransactionPatch) {
    patch.productId.Some? && patch.productId.value != t.productId
  }

  /** PATCH /transactions/:id as written: quantity and type may be resupplied
      but not changed, and everything supplied, the product included, is
      written over the row without touching any stock counter. */
  function UpdateAsWritten(s: State, id: TransactionId, patch: TransactionPatch): (r: Step<Transaction>)
    ensures id !in s.transactions ==> r == Step(s, Err(NotFound))
    ensures id in s.transactions && ChangesStockEffect(s.transactions[id], patch) ==> r == Step(s, Err(BadRequest))
    ensures id in s.transactions && !ChangesStockEffect(s.transactions[id], patch) ==> r.out.Ok?
    ensures r.out.Err? ==> r.next == s
    ensures r.out.Ok? ==>
      && id in s.transactions
      && r.next == s.(transactions := s.transactions[id := r.out.value])
      && r.out.value.productId == patch.productId.GetOr(s.transactions[id].productId)
      && r.out.value.kind == s.transactions[id].kind
      && r.out.value.quantity == s.transactions[id].quantity
      && r.out.value.unitPrice == (if patch.unitPrice.Some? then patch.unitPrice else s.transactions[id].unitPrice)
      && r.out.value.totalAmount == patch.totalAmount.GetOr(s.transactions[id].totalAmount)
      && r.out.value.notes == (if patch.notes.Some? then patch.notes else s.transactions[id].notes)
      && r.out.value.reference == (if patch.reference.Some? then patch.reference else s.transactions[id].reference)
      && r.out.value.transactionDate == patch.transactionDate.GetOr(s.transactions[id].transactionDate)
  {
    match FindOne(s, id)
    case Err(e) => Step(s, Err(e))
    case Ok(t) =>
      if ChangesStockEffect(t, patch) then Step(s, Err(BadRequest))
      else
        var t' := ApplyTransactionPatch(t, patch);
        Step(s.(transactions := s.transactions[id := t']), Ok(t'))
  }

  /** PATCH /transactions/:id with the guard its comment and message intend:
      an edit may not change the stock effect of the row, so a different
      quantity, type or product is refused; the other supplied fields
      overwrite the stored ones. */
  function Update(s: State, id: TransactionId, patch: TransactionPatch): (r: Step<Transaction>)
    ensures id !in s.transactions ==> r == Step(s, Err(NotFound))
    ensures id in s.transactions && (ChangesStockEffect(s.transactions[id], patch) || MovesToOtherProduct(s.transactions[id], patch))
            ==> r == Step(s, Err(BadRequest))
    ensures id in s.transactions && !ChangesStockEffect(s.transactions[id], patch) && !MovesToOtherProduct(s.transactions[id], patch)
            ==> r.out.Ok?
    ensures r.out.Err? ==> r.next == s
    ensures r.out.Ok? ==>
      && id in s.transactions
      && r.next == s.(transactions := s.transactions[id := r.out.value])
      && r.out.value.productId == s.transactions[id].productId
      && r.out.value.kind == s.transactions[id].kind
      && r.out.value.quantity == s.transactions[id].quantity
      && r.out.value.unitPrice == (if patch.unitPrice.Some? then patch.unitPrice else s.transactions[id].unitPrice)
      && r.out.value.totalAmount == patch.totalAmount.GetOr(s.transactions[id].totalAmount)
      && r.out.value.notes == (if patch.notes.Some? then patch.notes else s.transactions[id].notes)
      && r.out.value.reference == (if patch.reference.Some? then patch.reference else s.transactions[id].reference)
      && r.out.value.transactionDate == patch.transactionDate.GetOr(s.transactions[id].transactionDate)
  {
    match FindOne(s, id)
    case Err(e) => Step(s, Err(e))
    case Ok(t) =>
      if ChangesStockEffect(t, patch) || MovesToOtherProduct(t, patch) then Step(s, Err(BadRequest))
      else
        var t' := ApplyTransactionPatch(t, patch);
        Step(s.(transactions := s.transactions[id := t']), Ok(t'))
  }

  /** DELETE /transactions/:id. The stock move is reversed first; only when
      that succeeds is the row deleted. Any failure of the reversal is
      reported as BadRequest and leaves the row in place. */
  function Remove(s: State, id: TransactionId, now: Time): (r: Step<()>)
    ensures id !in s.transactions ==> r == Step(s, Err(NotFound))
    ensures r.out.Err? ==> r.next == s
    ensures id in s.transactions ==>
      var t := s.transactions[id];
      (r.out.Err? <==> t.productId !in s.inventory || s.inventory[t.productId].currentStock - SignedQuantity(t.kind, t.quantity) < 0)
    ensures id in s.transactions && r.out.Err? ==> r.out.error == BadRequest
    ensures r.out.Ok? ==>
      var t := s.transactions[id];
      var p := t.productId;
      && id in s.transactions
      && r.next.products == s.products
      && r.next.transactions == s.transactions - {id}
      && p in s.inventory
      && r.next.inventory.Keys == s.inventory.Keys
      && (forall q :: q in s.inventory && q != p ==> r.next.inventory[q] == s.inventory[q])
      && r.next.inventory[p].currentStock == s.inventory[p].currentStock - SignedQuantity(t.kind, t.quantity)
      && r.next.inventory[p].currentStock >= 0
      && r.next.inventory[p].minimumStock == s.inventory[p].minimumStock
      && r.next.inventory[p].maximumStock == s.inventory[p].maximumStock
      && r.next.inventory[p].lastRestockedAt == (if t.kind == Sale then Some(now) else s.inventory[p].lastRestockedAt)
  {
    match FindOne(s, id)
    case Err(e) => Step(s, Err(e))
    case Ok(t) =>
      var u := InventoryService.UpdateStock(s, t.productId, t.quantity, ReverseDirection(t.kind), now);
      if u.out.Err? then Step(u.next, Err(BadRequest))
      else
        var (rest, _) := Repository.Delete(u.next.transactions, id);
        Step(u.next.(transactions := rest), Ok(()))
  }

  /** Recording a transaction and then deleting it gives back the store it
      started from, except for the restock stamp of the product's row. */
  lemma CreateRemoveRoundTrip(s: State, dto: CreateTransactionDto, id: TransactionId, t1: Time, t2: Time)
    requires ValidCreateTransaction(dto) && id !in s.transactions
    requires dto.productId in s.inventory && s.inventory[dto.productId].currentStock >= 0
    requires Create(s, dto, id, t1).out.Ok?
    ensures var r := Remove(Create(s, dto, id, t1).next, id, t2);
      var p := dto.productId;
      && r.out.Ok?
      && r.next == s.(inventory := s.inventory[p := s.inventory[p].(lastRestockedAt := r.next.inventory[p].lastRestockedAt)])
  {
  }

  /** With quantity at least 1, recording a purchase, adjustment or return
      strictly raises the product's stock and recording a sale strictly
      lowers it. */
  lemma CreateMovesStockStrictly(s: State, dto: CreateTransactionDto, id: TransactionId, now: Time)
    requires ValidCreateTransaction(dto) && id !in s.transactions
    requires Create(s, dto, id, now).out.Ok?
    ensures dto.kind == "sale" ==>
      Create(s, dto, id, now).next.inventory[dto.productId].currentStock < s.inventory[dto.productId].currentStock
    ensures dto.kind != "sale" ==>
      Create(s, dto, id, now).next.inventory[dto.productId].currentStock > s.inventory[dto.productId].currentStock
  {
  }
}
